=== FILE: README.md ===
# Bounded sprite motion, text anchoring and the object pool of a pong-like game

This project models the pure logic inside `main.py`, a skeleton of a
two-player arcade ball game built on pygame, whose game logic is still mostly
stubbed. Three parts of that file are plain integer and map logic. The model proves what each one guarantees.

- **Bounded motion** (`Sprite.move_pos`). Every cat, paddle and ball moves by
  `(dx, dy)` through the same clamp. Each coordinate becomes
  `max(0, min(coord + d, screen - size))`, and the new rectangle takes the
  image's size. The model proves that the result is never negative. For a
  sprite whose image fits on the screen, it is also never past the far limit;
  it is the requested position exactly when that position is legal, and
  otherwise it is the nearest legal position. A sprite larger than the screen
  is pinned at 0 on that axis. A zero move leaves a sprite that is already on
  the screen alone, clamping twice is the same as clamping once, and legal moves
  add up. The main invariant is that a sprite whose image fits on the screen
  stays on the screen through any history of moves.
- **Edge-anchored text** (`Text.draw`). A non-negative configured coordinate
  is used as the screen coordinate. A negative coordinate `p` puts the text's
  far end `-p` away from the surface's far edge. The model proves that the
  anchored edge stays put when the message, and with it the rendered width,
  changes. It also proves that text which fits inside its margin is drawn on
  the surface.
- **The object pool** (`SpriteManager.add_objects`). Registering binds a label
  to `quantity` new objects and replaces any earlier list under that label.
  A negative quantity gives an empty list, because that is what
  `range(quantity)` does. Every other label keeps its list.

The game's set-up (`Game.__init__`) ties the three together. It registers one
cat, which stays at the top-left corner where it was built. It then registers
two paddles and places them through `move_pos`, and only after that registers
one ball and places it through `move_pos` too. Last, it registers one overlay
and sets its position with the `pos` setter. The model proves where each one
ends up. When the turned bat fits on the screen, both paddles are centred
vertically, and the left paddle sits 50 pixels in when there is room for it.
The right paddle is moved by `width - 50` from the left edge. When the turned
bat fits on the screen, the clamp then puts it flush against the right edge
whenever it is wider than 50 pixels, so its placement is clamped, not exact.
The ball's top-left corner, not its centre, lands on the screen centre when
the ball fits in the lower-right quarter of the screen; otherwise the clamp
pulls it back. The overlay's right end sits 5 pixels from the right edge.

Modules: `Geometry` (sizes, rectangles, the clamp), `Sprites` (constructors
and `move_pos`), `Texts` (text placement), `Pool` (the object pool), `Game`
(the opening layout).

## Model

| member | source | states |
|---|---|---|
| Geometry.Clamp | main.py:102-103 | The clamped coordinate is never negative. It is at most `hi` when `[0, hi]` is non-empty, and 0 when it is empty. It equals the request when the request is legal, and no legal coordinate is nearer to the request. |
| Geometry.ClampIdempotent | main.py:102-103 | Clamping an already clamped coordinate changes nothing. |
| Geometry.ClampExactIff | main.py:102-103 | For a non-empty interval, the clamp returns the request if and only if the request lies in `[0, hi]`. |
| Sprites.Rotate90 | main.py:135 | A quarter turn swaps the image's width and height. |
| Sprites.NewSprite | main.py:80-91 | The constructor puts the rectangle at the configured start position with the image's width and height. The position is not clamped. |
| Sprites.NewCat | main.py:126-128 | A cat is a base sprite: it keeps the given surface, image and start position, and its rectangle has the image's size and sits at the start position. |
| Sprites.NewPlayer | main.py:131-140 | A paddle keeps the given surface and start position, and its image is the bat image turned a quarter turn. Its rectangle keeps the start corner and takes the turned size, so its width is the bat image's height and its height the image's width. Its score starts at 0. |
| Sprites.NewBall | main.py:143-146 | A ball is a base sprite with speed 1: it keeps the given surface, image and start position, and its rectangle has the image's size and sits at the start position. |
| Sprites.MovePos | main.py:93-106 | Only the rectangle changes, and it takes the image's size. Both coordinates are non-negative and at most `max(0, screen - size)`, so a sprite larger than the screen is pinned at 0. The sprite is on the screen afterwards when its image fits. Each coordinate is the requested one when that one lies in `[0, screen - size]`, and no coordinate in that range is nearer to the request. |
| Sprites.MovePosExactIff | main.py:101-103 | For a sprite that fits, each new coordinate equals the requested one if and only if the request lies within `[0, screen - size]`. |
| Sprites.MovePosZeroIsIdentity | main.py:101-106 | A zero move of a sprite already on the screen leaves it unchanged. |
| Sprites.MovePosIdempotent | main.py:101-106 | A zero move after any move changes nothing: a clamped position is already legal. |
| Sprites.MovePosCompose | main.py:101-106 | Two moves that both stay within bounds give the same sprite as one move by their sum. |
| Sprites.MoveAllStaysOnSurface | main.py:101-106 | A sprite whose image fits is on the screen after any non-empty history of moves, or after any history if it started on the screen. Its rectangle keeps the image's size and nothing else about it changes. |
| Pool.Count | main.py:26 | `range(quantity)` runs `quantity` times for a non-negative quantity and not at all for a negative one. |
| Pool.Replicate | main.py:26 | The comprehension builds exactly `n` objects, and each one is the constructed value. |
| Pool.AddObjects | main.py:18-26 | After registration, the label maps to `max(0, quantity)` built objects. The key set gains that label only, and every other label keeps its list. |
| Pool.AddObjectsLastWins | main.py:26 | Registering twice under one label gives the same result as the second registration alone. |
| Pool.AddObjectsCommute | main.py:26 | Registrations under different labels can be done in either order. |
| Texts.NewText | main.py:40-47 | A new text item keeps the given surface, message and position, and the rendered size of that message. |
| Texts.UpdateMessage | main.py:49-60 | Only the rendered surface is replaced, by the new message's rendering. The stored message stays the one given at construction, and the position and surface are kept. |
| Texts.SetPos | main.py:74-76 | The position setter replaces the configured position and keeps the message and its rendering. |
| Texts.Anchor | main.py:63-65 | A non-negative coordinate is the gap to the near edge. A negative coordinate `p` leaves a gap of `-p` between the text's far end and the surface's far edge. |
| Texts.Draw | main.py:62-68 | The region drawn and refreshed has the rendered text's size. On each axis it starts at the configured coordinate, or for a negative coordinate it ends that far before the far edge. |
| Texts.AnchoredEdgeStable | main.py:49-66 | Changing the message, and so the rendered size, keeps the anchored edge in place: the near edge for a non-negative coordinate, the far edge for a negative one. |
| Texts.DrawOnSurface | main.py:63-66 | Text that fits inside its margin is drawn entirely on the surface. |
| Game.MoveObject | main.py:161-169 | Moving the sprite at index `i` under a label replaces that entry with the moved sprite. Every other entry under that label, every other label and the key set are unchanged. |
| Game.CentreOffset | main.py:161-163 | The floor-division centring offset puts an object's middle within half a pixel of the screen's middle. For an object that fits, the offset is a legal coordinate. |
| Game.PlaceBall | main.py:154-169 | After the cat, the paddles and the ball are registered and placed, the pool has exactly those three labels with 1, 2 and 1 sprites. Each sprite's rectangle has its image's size. |
| Game.PlacePaddles | main.py:154-163 | After the cat and the two paddles are registered and placed, the pool has exactly those two labels with 1 and 2 sprites. Each sprite's rectangle has its image's size. |
| Game.Init | main.py:150-173 | After set-up, the pool has exactly the labels Cat, Player, Ball and Text, holding 1, 2, 1 and 1 objects. Every sprite's rectangle has its image's size, and the overlay's position is `(-5, 5)`. |
| Game.PaddleLayout | main.py:157-163 | Both paddles are on the screen at the same centred height. The left one is exactly 50 in when there is room. The right one is flush with the right edge when it is at least 50 wide, and otherwise sits at `max(0, width - 50)`. |
| Game.BallLayout | main.py:165-169 | The ball is on the screen, and its top-left corner is at `min(screen / 2, screen - ball size)` on each axis. |
| Game.OverlayLayout | main.py:171-173 | The overlay's right end is 5 pixels from the screen's right edge and its top is 5 pixels down, whatever its rendered width. |
| Game.AllSpritesOnSurface | main.py:150-173 | When every image fits, every sprite in the pool is on the screen after set-up. |

## Left out

- All drawing and display refresh: `blit`, `fill`, `display.update`, `Sprite.draw` and the outline and filler images. `move_pos` and `Text.draw` are modelled only by the rectangles they compute.
- Image loading and font rendering. Image sizes and the rendered size of a message are inputs to the model (`Assets`, and the `rendered` argument of `UpdateMessage`).
- `pygame.transform.rotate(image, 90)` is modelled only by its effect on size: width and height swap. This is how the library treats quarter turns; its code is not part of this model.
- The `SpriteManager.__new__` singleton logic. It concerns object identity, and as written it tests the attribute name `instance` rather than the mangled private name, so it never returns an earlier instance.
- Object identity in the pool: each `obj(*args)` call builds a distinct object. In this value model, the objects built by one registration are equal values.
- The frame loop, the `__running` flag, the escape-key event check, the empty `__countdown` stub and `__reset_game`, which only redraws. These are I/O and orchestration with no computational content.
- Collision handling, scoring, the round countdown and power-up scheduling. The file has none of these, and the ball's speed and the paddles' score are stored but never read.
- Machine integer limits of pygame's `Rect`. Coordinates are unbounded integers here.

=== FILE: game.dfy ===
/** The opening layout the game builds before its first frame: one cat left
    where it was built, two paddles and then one ball placed on the screen
    through the sprites' bounded motion, and one text overlay whose position
    is set directly, all registered in the object pool. */
module Game {
  import opened Geometry
  import opened Sprites
  import opened Texts
  import opened Pool

  /** An entry of the object pool. */
  datatype Object = SpriteObject(sprite: Sprite) | TextObject(text: Text)

  /** Sizes of the loaded assets: the three images, and the empty message
      as rendered in the overlay font. */
  datatype Assets = Assets(cat: Size, bat: Size, ball: Size, emptyText: Size)

  /** Every object is constructed at the top-left corner. */
  const Origin: (int, int) := (0, 0)

  /** How far in from its side of the screen each paddle is moved. */
  const PaddleInset: int := 50

  /** The overlay is anchored 5 from the right edge and 5 from the top. */
  const OverlayPos: (int, int) := (-5, 5)

  /** `object_pool[name][i].move_pos(dx, dy)`: moves one sprite of the pool
      in place. Only that entry changes, and it becomes the moved sprite. */
  function MoveObject(pool: ObjectPool<Object>, name: string, i: nat, dx: int, dy: int): (r: ObjectPool<Object>)
    requires name in pool && i < |pool[name]| && pool[name][i].SpriteObject?
    ensures r.Keys == pool.Keys && |r[name]| == |pool[name]|
    ensures r[name][i] == SpriteObject(MovePos(pool[name][i].sprite, dx, dy))
    ensures forall j :: 0 <= j < |r[name]| && j != i ==> r[name][j] == pool[name][j]
    ensures forall l :: l in pool && l != name ==> r[l] == pool[l]
  {
    pool[name := pool[name][i := SpriteObject(MovePos(pool[name][i].sprite, dx, dy))]]
  }

  /** The half-height offset that centres an object of height `h` on a
      screen of height `screenH`, using floor division as the source does. */
  function CentreOffset(screenH: nat, h: nat): (r: int)
    ensures -1 <= 2 * r + h - screenH <= 1
    ensures h <= screenH ==> 0 <= r <= screenH - h
  {
    screenH / 2 - h / 2
  }

  /** Every entry under `name` is a sprite drawn on `screen` whose
      rectangle has its image's size. */
  predicate SpriteEntries(pool: ObjectPool<Object>, name: string, screen: Size)
  {
    && name in pool
    && forall i :: 0 <= i < |pool[name]| ==>
         pool[name][i].SpriteObject? && Consistent(pool[name][i].sprite) && pool[name][i].sprite.surface == screen
  }

  /** The pool as it stands once the game is set up: the four labels, one
      cat, two paddles, one ball and one text item, every sprite's rectangle
      the size of its image, and the overlay at its configured position. */
  function Init(screen: Size, assets: Assets): (pool: ObjectPool<Object>)
    ensures pool.Keys == {"Cat", "Player", "Ball", "Text"}
    ensures |pool["Cat"]| == 1 && |pool["Player"]| == 2 && |pool["Ball"]| == 1 && |pool["Text"]| == 1
    ensures SpriteEntries(pool, "Cat", screen) && SpriteEntries(pool, "Player", screen)
    ensures SpriteEntries(pool, "Ball", screen)
    ensures pool["Text"][0].TextObject? && pool["Text"][0].text.pos == OverlayPos
  {
    assert "Cat" != "Text" && "Player" != "Text" && "Ball" != "Text";
    var ballPlaced := PlaceBall(screen, assets);
    var withText := AddObjects(ballPlaced, "Text", TextObject(NewText(screen, "", Origin, assets.emptyText)), 1);
    withText["Text" := withText["Text"][0 := TextObject(SetPos(withText["Text"][0].text, OverlayPos))]]
  }

  /** The set-up up to the overlay: the paddles placed, then the ball
      registered and moved half the screen in from the corner. */
  function PlaceBall(screen: Size, assets: Assets): (pool: ObjectPool<Object>)
    ensures pool.Keys == {"Cat", "Player", "Ball"}
    ensures |pool["Cat"]| == 1 && |pool["Player"]| == 2 && |pool["Ball"]| == 1
    ensures SpriteEntries(pool, "Cat", screen) && SpriteEntries(pool, "Player", screen)
    ensures SpriteEntries(pool, "Ball", screen)
  {
    assert "Cat" != "Ball" && "Player" != "Ball";
    var placed := PlacePaddles(screen, assets);
    var withBall := AddObjects(placed, "Ball", SpriteObject(NewBall(screen, assets.ball, Origin)), 1);
    MoveObject(withBall, "Ball", 0, screen.width / 2, screen.height / 2)
  }

  /** The first half of the set-up: the cat and the two paddles registered,
      then each paddle moved in from its side and centred vertically. */
  function PlacePaddles(screen: Size, assets: Assets): (pool: ObjectPool<Object>)
    ensures pool.Keys == {"Cat", "Player"}
    ensures |pool["Cat"]| == 1 && |pool["Player"]| == 2
    ensures SpriteEntries(pool, "Cat", screen) && SpriteEntries(pool, "Player", screen)
  {
    assert "Cat" != "Player";
    var cats := AddObjects(map[], "Cat", SpriteObject(NewCat(screen, assets.cat, Origin)), 1);
    var withPlayers := AddObjects(cats, "Player", SpriteObject(NewPlayer(screen, assets.bat, Origin)), 2);
    var h0 := withPlayers["Player"][0].sprite.image.height;
    var leftPlaced := MoveObject(withPlayers, "Player", 0, PaddleInset, CentreOffset(screen.height, h0));
    var h1 := leftPlaced["Player"][1].sprite.image.height;
    MoveObject(leftPlaced, "Player", 1, screen.width - PaddleInset, CentreOffset(screen.height, h1))
  }

  /** The paddle image after its quarter turn fits on the screen. */
  predicate PaddleFits(screen: Size, assets: Assets)
  {
    Fits(Rotate90(assets.bat), screen)
  }

  /** Both paddles are centred vertically, to within one pixel in twice the
      coordinate (floor division on odd sizes); the left one sits exactly
      `PaddleInset` in when there is room for it. The right one is moved by
      `width - PaddleInset` from the left edge, which the clamp turns into
      "flush with the right edge" for any paddle wider than the inset: its
      placement is clamped, not exact. */
  lemma PaddleLayout(screen: Size, assets: Assets)
    requires PaddleFits(screen, assets)
    ensures var pool := Init(screen, assets);
            var left, right := pool["Player"][0].sprite, pool["Player"][1].sprite;
            && OnSurface(left) && OnSurface(right)
            && left.rect.y == right.rect.y == CentreOffset(screen.height, assets.bat.width)
            && -1 <= 2 * left.rect.y + left.rect.height - screen.height <= 1
            && (PaddleInset <= screen.width - left.rect.width ==> left.rect.x == PaddleInset)
            && (right.rect.width >= PaddleInset ==> right.rect.x + right.rect.width == screen.width)
            && (right.rect.width < PaddleInset ==> right.rect.x == Max(0, screen.width - PaddleInset))
  {
  }

  /** The ball is moved by half the screen from the corner, so its top-left
      corner (not its centre) lands on the screen's centre when the ball fits
      in the lower-right quarter, and is clamped otherwise. */
  lemma BallLayout(screen: Size, assets: Assets)
    requires Fits(assets.ball, screen)
    ensures var ball := Init(screen, assets)["Ball"][0].sprite;
            && OnSurface(ball)
            && ball.rect.x == Min(screen.width / 2, screen.width - assets.ball.width)
            && ball.rect.y == Min(screen.height / 2, screen.height - assets.ball.height)
  {
  }

  /** The overlay is drawn with its right end 5 in from the screen's right
      edge and its top 5 down from the top edge, whatever its width. */
  lemma OverlayLayout(screen: Size, assets: Assets)
    ensures var region := Draw(Init(screen, assets)["Text"][0].text);
            && region.x + region.width == screen.width - 5
            && region.y == 5
  {
  }

  /** With every image fitting on the screen, every sprite in the pool is on
      the screen after set-up: the cat because it was built at the corner,
      the paddles and the ball because they were placed through the clamp. */
  lemma AllSpritesOnSurface(screen: Size, assets: Assets)
    requires Fits(assets.cat, screen) && PaddleFits(screen, assets) && Fits(assets.ball, screen)
    ensures var pool := Init(screen, assets);
            forall name :: name in pool && name != "Text" ==>
              forall i :: 0 <= i < |pool[name]| ==> OnSurface(pool[name][i].sprite)
  {
  }
}

=== FILE: geometry.dfy ===
/** Integer geometry of the playing field: sizes, rectangles and the
    one-dimensional clamp every sprite movement goes through. */
module Geometry {

  /** Width and height of a surface: the screen, a loaded image or a
      rendered piece of text. Surface dimensions are never negative. */
  datatype Size = Size(width: nat, height: nat)

  /** A screen rectangle: top-left corner and dimensions, as pygame's Rect. */
  datatype Rect = Rect(x: int, y: int, width: nat, height: nat)

  function Max(a: int, b: int): (r: int)
    ensures r >= a && r >= b
    ensures r == a || r == b
  {
    if a >= b then a else b
  }

  function Min(a: int, b: int): (r: int)
    ensures r <= a && r <= b
    ensures r == a || r == b
  {
    if a <= b then a else b
  }

  /** Distance between two points on a line. */
  function Dist(a: int, b: int): nat
  {
    if a >= b then a - b else b - a
  }

  /** `max(0, min(v, hi))`: the coordinate `v` pulled into `[0, hi]`.
      When the interval is empty (`hi < 0`, a sprite larger than the
      field) the result is 0. Otherwise it is the legal coordinate
      nearest to `v`, which is `v` itself when `v` is already legal. */
  function Clamp(v: int, hi: int): (r: int)
    ensures r >= 0
    ensures hi >= 0 ==> r <= hi
    ensures hi < 0 ==> r == 0
    ensures 0 <= v <= hi ==> r == v
    ensures NearestLegal(r, v, hi)
  {
    Max(0, Min(v, hi))
  }

  /** No coordinate in `[0, hi]` is closer to `v` than `r` is. */
  ghost predicate NearestLegal(r: int, v: int, hi: int)
  {
    forall p :: 0 <= p <= hi ==> Dist(r, v) <= Dist(p, v)
  }

  /** A size fits inside a surface of size `field`. */
  predicate Fits(s: Size, field: Size)
  {
    s.width <= field.width && s.height <= field.height
  }

  /** The rectangle lies entirely inside a surface of size `field`. */
  predicate InBounds(r: Rect, field: Size)
  {
    && 0 <= r.x && r.x + r.width <= field.width
    && 0 <= r.y && r.y + r.height <= field.height
  }

  /** Clamping is idempotent: a clamped coordinate is already legal. */
  lemma ClampIdempotent(v: int, hi: int)
    ensures Clamp(Clamp(v, hi), hi) == Clamp(v, hi)
  {
  }

  /** Within `[0, hi]` the clamp changes nothing, and only there: the result
      equals the request exactly when the request is legal. */
  lemma ClampExactIff(v: int, hi: int)
    requires hi >= 0
    ensures Clamp(v, hi) == v <==> 0 <= v <= hi
  {
  }
}

=== FILE: pool.dfy ===
/** The sprite manager's object pool: named collections of game objects. */
module Pool {

  /** A pool binds each name to the list of objects registered under it. */
  type ObjectPool<T> = map<string, seq<T>>

  /** The number of iterations of `range(quantity)`: none for a negative count. */
  function Count(quantity: int): (n: nat)
    ensures quantity >= 0 ==> n == quantity
    ensures quantity < 0 ==> n == 0
  {
    if quantity < 0 then 0 else quantity
  }

  /** `n` freshly built objects, each the value the constructor produced. */
  function Replicate<T>(x: T, n: nat): (r: seq<T>)
    ensures |r| == n
    ensures forall i :: 0 <= i < |r| ==> r[i] == x
  {
    if n == 0 then [] else [x] + Replicate(x, n - 1)
  }

  /** Registers `quantity` objects built alike under `name`. Any earlier
      list under that name is dropped; every other name keeps its list. */
  function AddObjects<T>(pool: ObjectPool<T>, name: string, built: T, quantity: int): (r: ObjectPool<T>)
    ensures r.Keys == pool.Keys + {name}
    ensures |r[name]| == Count(quantity)
    ensures forall i :: 0 <= i < |r[name]| ==> r[name][i] == built
    ensures forall l :: l in pool && l != name ==> r[l] == pool[l]
  {
    pool[name := Replicate(built, Count(quantity))]
  }

  /** The later registration under a name wins outright: the earlier one
      leaves no trace. */
  lemma AddObjectsLastWins<T>(pool: ObjectPool<T>, name: string, a: T, qa: int, b: T, qb: int)
    ensures AddObjects(AddObjects(pool, name, a, qa), name, b, qb) == AddObjects(pool, name, b, qb)
  {
  }

  /** Registrations under different labels do not interfere, so their order
      does not matter. */
  lemma AddObjectsCommute<T>(pool: ObjectPool<T>, l1: string, a: T, q1: int, l2: string, b: T, q2: int)
    requires l1 != l2
    ensures AddObjects(AddObjects(pool, l1, a, q1), l2, b, q2)
         == AddObjects(AddObjects(pool, l2, b, q2), l1, a, q1)
  {
  }
}

=== FILE: sprites.dfy ===
/** Sprites: an image placed on the screen surface at a rectangle, and the
    bounded motion every game entity (cat, paddle, ball) goes through. */
module Sprites {
  import opened Geometry

  /** What a sprite is, with the extra state each subclass stores. */
  datatype Role = Cat | Player(score: nat) | Ball(speed: int)

  /** A sprite: the size of the surface it is drawn on, its image size,
      the configured start position and its current rectangle. */
  datatype Sprite = Sprite(surface: Size, image: Size, startPos: (int, int), rect: Rect, role: Role)

  /** The rectangle has the dimensions of the image. */
  predicate Consistent(s: Sprite)
  {
    s.rect.width == s.image.width && s.rect.height == s.image.height
  }

  /** The sprite lies entirely on its surface. */
  predicate OnSurface(s: Sprite)
  {
    InBounds(s.rect, s.surface)
  }

  /** The base constructor: the rectangle starts at the configured position
      with the image's size. The position is NOT clamped here. */
  function NewSprite(surface: Size, image: Size, startPos: (int, int), role: Role): (s: Sprite)
    ensures Consistent(s)
    ensures s.rect.x == startPos.0 && s.rect.y == startPos.1
    ensures s.surface == surface && s.image == image && s.startPos == startPos && s.role == role
  {
    Sprite(surface, image, startPos, Rect(startPos.0, startPos.1, image.width, image.height), role)
  }

  /** Turning an image a quarter turn swaps its width and height. */
  function Rotate90(image: Size): (r: Size)
    ensures r.width == image.height && r.height == image.width
  {
    Size(image.height, image.width)
  }

  /** A cat power-up adds nothing to the base sprite. */
  function NewCat(surface: Size, image: Size, startPos: (int, int)): (s: Sprite)
    ensures Consistent(s) && s.role == Cat
    ensures s.rect.x == startPos.0 && s.rect.y == startPos.1
    ensures s.surface == surface && s.image == image && s.startPos == startPos
  {
    NewSprite(surface, image, startPos, Cat)
  }

  /** A paddle: the bat image is loaded upright and turned a quarter turn,
      the rectangle is rebuilt at the same corner with the turned size, and
      the score starts at zero. */
  function NewPlayer(surface: Size, image: Size, startPos: (int, int)): (s: Sprite)
    ensures Consistent(s)
    ensures s.rect.width == image.height && s.rect.height == image.width
    ensures s.rect.x == startPos.0 && s.rect.y == startPos.1
    ensures s.surface == surface && s.role == Player(0)
    ensures s.startPos == startPos && s.image == Rotate90(image)
  {
    var base := NewSprite(surface, image, startPos, Player(0));
    var turned := Rotate90(base.image);
    base.(image := turned, rect := Rect(base.rect.x, base.rect.y, turned.width, turned.height))
  }

  /** A ball starts with speed 1 (a value nothing in the game reads). */
  function NewBall(surface: Size, image: Size, startPos: (int, int)): (s: Sprite)
    ensures Consistent(s) && s.role == Ball(1)
    ensures s.rect.x == startPos.0 && s.rect.y == startPos.1
    ensures s.surface == surface && s.image == image && s.startPos == startPos
  {
    NewSprite(surface, image, startPos, Ball(1))
  }

  /** Moves the sprite by `(dx, dy)`, keeping it on the surface: each
      coordinate is clamped to `[0, surface - current rect size]`, and the
      new rectangle takes the image's size. Nothing but the rectangle
      changes, and the new corner is never negative. For a sprite whose
      rectangle fits on the surface, the corner is also never past the far
      limit; it is the requested corner whenever that one is legal, and
      otherwise the legal corner nearest to it. A sprite wider or taller than
      the surface is pinned at 0 on that axis. */
  function MovePos(s: Sprite, dx: int, dy: int): (r: Sprite)
    ensures r == s.(rect := r.rect)
    ensures Consistent(r)
    ensures r.rect.x >= 0 && r.rect.y >= 0
    ensures r.rect.x <= Max(0, s.surface.width - s.rect.width)
    ensures r.rect.y <= Max(0, s.surface.height - s.rect.height)
    ensures Consistent(s) && Fits(s.image, s.surface) ==> OnSurface(r)
    ensures 0 <= s.rect.x + dx <= s.surface.width - s.rect.width ==> r.rect.x == s.rect.x + dx
    ensures 0 <= s.rect.y + dy <= s.surface.height - s.rect.height ==> r.rect.y == s.rect.y + dy
    ensures NearestLegal(r.rect.x, s.rect.x + dx, s.surface.width - s.rect.width)
    ensures NearestLegal(r.rect.y, s.rect.y + dy, s.surface.height - s.rect.height)
  {
    var hiX := s.surface.width - s.rect.width;
    var hiY := s.surface.height - s.rect.height;
    s.(rect := Rect(Clamp(s.rect.x + dx, hiX), Clamp(s.rect.y + dy, hiY), s.image.width, s.image.height))
  }

  /** The clamp leaves a move alone exactly when it stays on the surface:
      the new corner is the requested one if and only if the request is legal. */
  lemma MovePosExactIff(s: Sprite, dx: int, dy: int)
    requires Consistent(s) && Fits(s.image, s.surface)
    ensures MovePos(s, dx, dy).rect.x == s.rect.x + dx
            <==> 0 <= s.rect.x + dx <= s.surface.width - s.rect.width
    ensures MovePos(s, dx, dy).rect.y == s.rect.y + dy
            <==> 0 <= s.rect.y + dy <= s.surface.height - s.rect.height
  {
  }

  /** A zero move of a sprite already on the surface changes nothing. */
  lemma MovePosZeroIsIdentity(s: Sprite)
    requires Consistent(s) && OnSurface(s)
    ensures MovePos(s, 0, 0) == s
  {
  }

  /** Clamping a clamped position again changes nothing. */
  lemma MovePosIdempotent(s: Sprite, dx: int, dy: int)
    requires Consistent(s)
    ensures MovePos(MovePos(s, dx, dy), 0, 0) == MovePos(s, dx, dy)
  {
  }

  /** Two moves that both stay on the surface add up to one move. */
  lemma MovePosCompose(s: Sprite, dx1: int, dy1: int, dx2: int, dy2: int)
    requires Consistent(s)
    requires 0 <= s.rect.x + dx1 <= s.surface.width - s.rect.width
    requires 0 <= s.rect.y + dy1 <= s.surface.height - s.rect.height
    requires 0 <= s.rect.x + dx1 + dx2 <= s.surface.width - s.rect.width
    requires 0 <= s.rect.y + dy1 + dy2 <= s.surface.height - s.rect.height
    ensures MovePos(MovePos(s, dx1, dy1), dx2, dy2) == MovePos(s, dx1 + dx2, dy1 + dy2)
  {
  }

  /** A history of `move_pos` calls, applied in order. */
  function MoveAll(s: Sprite, moves: seq<(int, int)>): Sprite
    decreases |moves|
  {
    if |moves| == 0 then s
    else MoveAll(MovePos(s, moves[0].0, moves[0].1), moves[1..])
  }

  /** The playing-field invariant: a sprite whose image fits on the surface
      is on the surface after any non-empty history of moves (and stays on it
      across any history if it started there), and its rectangle keeps the
      image's size throughout. */
  lemma {:induction false} MoveAllStaysOnSurface(s: Sprite, moves: seq<(int, int)>)
    requires Consistent(s) && Fits(s.image, s.surface)
    requires OnSurface(s) || |moves| > 0
    ensures OnSurface(MoveAll(s, moves)) && Consistent(MoveAll(s, moves))
    ensures MoveAll(s, moves) == s.(rect := MoveAll(s, moves).rect)
    decreases |moves|
  {
    if |moves| > 0 {
      var next := MovePos(s, moves[0].0, moves[0].1);
      MoveAllStaysOnSurface(next, moves[1..]);
    }
  }
}

=== FILE: text.dfy ===
/** Text overlays: a rendered message placed on the screen surface, where a
    negative configured coordinate is measured back from the far edge. */
module Texts {
  import opened Geometry

  /** A text item: the surface it is drawn on, its message, its configured
      position and the size of the message as rendered in its font. */
  datatype Text = Text(surface: Size, message: string, pos: (int, int), rendered: Size)

  /** The constructor: the message is rendered once, with its size given
      by the font (rendering itself is outside the model). */
  function NewText(surface: Size, message: string, pos: (int, int), rendered: Size): (t: Text)
    ensures t.surface == surface && t.message == message && t.pos == pos && t.rendered == rendered
  {
    Text(surface, message, pos, rendered)
  }

  /** The gap between the far end of an extent `[start, start + len)` and the
      far edge of a surface dimension. */
  function FarGap(start: int, len: nat, dim: nat): int
  {
    dim - (start + len)
  }

  /** One screen coordinate of a text item: a non-negative configured
      coordinate is the gap to the near edge; a negative one, `p`, leaves a
      gap of `-p` between the text's far end and the surface's far edge. */
  function Anchor(p: int, textDim: nat, surfaceDim: nat): (s: int)
    ensures p >= 0 ==> s == p
    ensures p < 0 ==> FarGap(s, textDim, surfaceDim) == -p
  {
    if p < 0 then surfaceDim + p - textDim else p
  }

  /** The screen region a draw covers: the anchored position, with the
      rendered message's size. */
  function Draw(t: Text): (region: Rect)
    ensures region.width == t.rendered.width && region.height == t.rendered.height
    ensures t.pos.0 >= 0 ==> region.x == t.pos.0
    ensures t.pos.1 >= 0 ==> region.y == t.pos.1
    ensures t.pos.0 < 0 ==> FarGap(region.x, region.width, t.surface.width) == -t.pos.0
    ensures t.pos.1 < 0 ==> FarGap(region.y, region.height, t.surface.height) == -t.pos.1
  {
    Rect(Anchor(t.pos.0, t.rendered.width, t.surface.width),
         Anchor(t.pos.1, t.rendered.height, t.surface.height),
         t.rendered.width, t.rendered.height)
  }

  /** Shows a new message: only the rendered surface is replaced, with the
      size the font gives `message`. The stored message stays the one given
      at construction, and the configured position is kept. */
  function UpdateMessage(t: Text, message: string, rendered: Size): (r: Text)
    ensures r.rendered == rendered
    ensures r.message == t.message && r.pos == t.pos && r.surface == t.surface
  {
    t.(rendered := rendered)
  }

  /** Sets the configured position; the message and its rendering are kept. */
  function SetPos(t: Text, pos: (int, int)): (r: Text)
    ensures r.pos == pos
    ensures r.message == t.message && r.rendered == t.rendered && r.surface == t.surface
  {
    t.(pos := pos)
  }

  /** The edge a text item is anchored to stays put when its message, and
      with it its rendered size, changes: the near edge for a non-negative
      coordinate, the far edge for a negative one. */
  lemma AnchoredEdgeStable(t: Text, message: string, rendered: Size)
    ensures var before, after := Draw(t), Draw(UpdateMessage(t, message, rendered));
            && (t.pos.0 >= 0 ==> after.x == before.x)
            && (t.pos.0 < 0 ==> after.x + after.width == before.x + before.width)
            && (t.pos.1 >= 0 ==> after.y == before.y)
            && (t.pos.1 < 0 ==> after.y + after.height == before.y + before.height)
  {
  }

  /** A text item whose message fits in the room its configured margin
      leaves is drawn entirely on the surface. */
  lemma DrawOnSurface(t: Text)
    requires t.rendered.width + Dist(t.pos.0, 0) <= t.surface.width
    requires t.rendered.height + Dist(t.pos.1, 0) <= t.surface.height
    ensures InBounds(Draw(t), t.surface)
  {
  }
}
